=== FILE: README.md ===
# Pomodoro session engine, modelled in Dafny

The page component `Home` in `src/app/page.tsx` runs a Pomodoro cycle. It
alternates work intervals and breaks for a number of sets, and it plays a
background sound for each channel. This project lifts that logic out of React
state into an immutable `Session` record. Each handler becomes a pure step
function that returns the next record together with what it asks of the
audio element: `Play(url, volumePercent)` or `Stop`.

Modules, one per file:

- `Wrappers` (`wrappers.dfy`): `Option`.
- `Iteration` (`iteration.dfy`): repeating a step function. Generic facts
  about runs: adding run lengths, a measure that goes down by one per step,
  a key that never changes, chains of equal-length blocks.
- `Clock` (`clock.dfy`): `formatTime`, that is `Math.floor(s / 60)` and
  JavaScript's `s % 60`, each `toString()`-ed and `padStart(2, "0")`-ed. It
  also holds a parser for the clock face, used to show that nothing is lost.
- `Settings` (`settings.dfy`): the three numeric inputs. It holds their ranges
  and defaults, the `onChange` and `onBlur` handlers, and the controlled box
  that shows nothing for 0.
- `Audio` (`audio.dfy`): the two preset catalogs, `playBgmIfNotSilence` as a
  list of intents, and a speaker that plays the last intent.
- `Session` (`session.dfy`): the record and the handlers `startWorkTimer`,
  `startBreakTimer`, `startNextSet`, `pauseTimer`, `resumeTimer` and
  `resetTimer`, plus the one-second interval callback. The callback does not
  switch from work to break, or from a break to the next set, itself. It
  schedules the switch with a 100 ms `setTimeout`. A scheduled callback is a
  `Deferred` value in the record's `pending` queue. It carries what its
  closure captured when it was scheduled: the interval length, the next set
  number and the sound. `Drain` runs the queue.
- `Cycle` (`cycle.dfy`): a turn is one interval tick followed by the
  timeouts it scheduled, because the 100 ms timeout is assumed to fire
  before the next tick. `Run` is `n` turns. This module proves what whole
  runs do: the number of turns each interval lasts, and that a cycle ends
  idle after exactly `max(1, totalSets)` sets.
- `Pausing` (`pausing.dfy`): pause, resume and reset, including the two
  findings below.

`resumeTimer` does not record which channel was paused. It infers the
channel from `totalTime == (workTime || 25) * 60` (lines 231-236).
`Session.Resume` models that inference. `Pausing.ResumeTo` records the
channel instead.

The settings boxes are controlled inputs: `value={workTime === 0 ? "" :
workTime}`. An edit that `onChange` refuses is undone on the next render. So
`onBlur` re-reads the value that is stored, not the text that was typed.
`Settings.Displayed` models that, and `Settings.EditThenBlurInRange` states
the result.

## Model

| member | source | states |
|---|---|---|
| Clock.Decimal | src/app/page.tsx:310-312 | `toString()` of a whole number: at least one character, all digits, exactly one character when the number is below 10, and no leading zero (the first digit is 0 only for the number 0) |
| Clock.IntToString | src/app/page.tsx:310-311 | `toString()` of any integer: a minus sign exactly when the number is negative, followed by digits that read back as its magnitude, with no leading zero: the first digit is 0 only for the number 0 |
| Clock.ValueOfDecimal | src/app/page.tsx:310-312 | reading back the decimal rendering of a number gives that number |
| Clock.PadTwo | src/app/page.tsx:310-312 | `padStart(2, "0")`: the length is 2 or the original length if longer, the original string is kept whole at the end, and only zeros are added in front |
| Clock.JsRemainder | src/app/page.tsx:309 | JavaScript's `%` takes the sign of the dividend. For a non-negative dividend it is the ordinary remainder, in `[0, b)`. For a negative one it is the negated remainder of the magnitude, in `(-b, 0]` |
| Clock.FormatTime | src/app/page.tsx:307-313 | for a non-negative count the face has at least five characters with the colon third from the end |
| Clock.PaddedValue | src/app/page.tsx:310-312 | a padded rendering is all digits, reads back as the number, and is exactly two characters below 100 and never cut short above |
| Clock.FormatTimeFields | src/app/page.tsx:307-313 | the face is the padded minutes, a colon and the padded seconds; the minutes field reads back as `floor(s / 60)` and is never truncated; the seconds field is exactly two digits and reads back as `s % 60` |
| Clock.FormatTimeRoundTrip | src/app/page.tsx:307-313 | parsing the face of any non-negative count gives back the count, so `mins * 60 + secs == s` with `secs < 60` |
| Clock.FormatTimeInjective | src/app/page.tsx:307-313 | two non-negative counts show the same face exactly when they are equal |
| Clock.TwoHoursFace | src/app/page.tsx:307-313 | 7200 seconds show as "120:00": the minutes are never truncated |
| Clock.MinuteAndFiveFace | src/app/page.tsx:307-313 | 65 seconds show as "01:05": both fields are padded to two digits |
| Settings.OnChange | src/app/page.tsx:400-410 | a blank box stores 0; a number in range is stored; a non-number or an out-of-range number keeps the stored value; a change is only ever to 0 or to a typed number in range; an admissible value stays admissible (the break field at 430-440 and the sets field at 460-470 are the same handler with other bounds) |
| Settings.OnBlur | src/app/page.tsx:411-417 | a reading that is not a number or is out of range restores the default; otherwise the stored value stays (likewise 441-447 and 471-476) |
| Settings.Displayed | src/app/page.tsx:399 | the controlled box shows nothing exactly when the stored value is 0, and otherwise shows the stored value |
| Settings.EditThenBlurInRange | src/app/page.tsx:399-417 | any edit followed by leaving the box ends in range: the typed number if it was in range, the default after a blank box, and otherwise the earlier value, or the default if that was blank |
| Settings.BlurSettles | src/app/page.tsx:411-417 | leaving the box a second time changes nothing |
| Settings.FieldsWellFormed | src/app/page.tsx:396-476 | each field's range starts at 1 and holds its default (25 of 1..120, 5 of 1..60, 4 of 1..10), and every admissible value is between 0 and 120 |
| Audio.Find | src/app/page.tsx:172 | `Array.prototype.find` by id: a result is an entry with that id, there is none exactly when no entry has the id, and the result is the first entry with that id: no earlier entry has it |
| Audio.BgmIntents | src/app/page.tsx:165-177 | at most one request, always a `Play` at the requested volume, never for the silence id, and only of a non-empty file: the file of the first catalog entry with the selected id, which `find` returns |
| Audio.SilenceNeverPlays | src/app/page.tsx:173 | selecting "silence" never asks anything to play |
| Audio.UnknownNeverPlays | src/app/page.tsx:172-173 | an id the catalog lacks never asks anything to play |
| Audio.FindListed | src/app/page.tsx:172 | in a catalog without repeated ids, looking up an entry's id finds that entry |
| Audio.EntriesPlay | src/app/page.tsx:165-177 | in such a catalog with no empty file, every entry but silence plays its own file |
| Audio.CatalogEntriesPlay | src/app/page.tsx:46-104 | both catalogs list each id once, and every entry but silence plays its own file |
| Audio.Effect | src/app/page.tsx:107-144 | one request: `Play` (`playAudio`) leaves the element playing that file at that volume, and `Stop` (`stopAudio`) leaves it silent, and only `Stop` does |
| Audio.Hear | src/app/page.tsx:107-144 | the element ends up doing what the last request said: playing its file at its volume, or silent after `Stop` |
| Session.OrDefault | src/app/page.tsx:184 | `minutes \|\| fallback`: 0 counts as unset and gives the fallback; any other value is kept |
| Session.WorkSeconds | src/app/page.tsx:184 | `(workTime \|\| 25) * 60`: `workTime * 60` seconds for a non-zero setting and 1500 seconds when the field is blank, so 60 to 7200 whole minutes' worth of seconds for any admissible setting |
| Session.BreakSeconds | src/app/page.tsx:197 | `(breakTime \|\| 5) * 60`: `breakTime * 60` seconds for a non-zero setting and 300 seconds when the field is blank, so 60 to 3600 whole minutes' worth of seconds for any admissible setting |
| Session.LastSet | src/app/page.tsx:274-285 | the last set a cycle runs is `max(1, totalSets)`: `totalSets` whenever that is 1 or more, and 1 otherwise, because the first set always runs |
| Session.BreakCallback | src/app/page.tsx:272 | the timeout scheduled at the end of work begins a break, with the break length and break sound captured when it was scheduled; for configured settings the invariant allows it |
| Session.NextSetCallback | src/app/page.tsx:275-277 | the timeout scheduled at the end of a break begins set `currentSet + 1`, with the work length and work sound captured when it was scheduled; below the number of sets the invariant allows it |
| Session.Fire | src/app/page.tsx:272-277 | a scheduled callback begins a break in the same set, or work in its captured set; the interval has its captured length, starts from full, and has its captured sound; neither settings nor queue change |
| Session.Start | src/app/page.tsx:183-194 | start begins set 1 with a full work interval and the work sound; nothing else changes, and scheduled timeouts stay scheduled |
| Session.StartBreak | src/app/page.tsx:196-204 | a full break begins in the same set with the break sound; nothing else changes |
| Session.StartNextSet | src/app/page.tsx:207-221 | the counter moves on by one and a full work interval begins with the work sound; nothing else changes |
| Session.Pause | src/app/page.tsx:223-226 | pausing changes only the phase and stops the sound |
| Session.ResumeChannel | src/app/page.tsx:231-236 | the channel resumed is a break exactly when the session is paused and its interval length differs from the work length; otherwise it is work |
| Session.Resume | src/app/page.tsx:228-249 | with no time left nothing happens; otherwise only the phase changes, to the inferred channel, whose sound is asked for |
| Session.Reset | src/app/page.tsx:251-261 | reset goes idle with no time, no interval and no set, stops the sound, and keeps the scheduled timeouts |
| Session.ResetCancelling | src/app/page.tsx:251-261 | the corrected reset: exactly the reset as written (idle, no time, no interval, no set, sound stopped), except that nothing stays scheduled |
| Session.Tick | src/app/page.tsx:266-289 | the interval callback never changes the settings, never lets a non-negative time go negative or up, and changes the time only in work or a break |
| Session.Drain | src/app/page.tsx:272-277 | runs the scheduled timeouts oldest first: the queue ends empty, the settings are kept, the requests are each callback's sound in order, and the interval the last callback begins, of its captured length and from full, is the one that stays; a single callback is exactly `Fire`; with nothing scheduled nothing changes |
| Session.InitialInv | src/app/page.tsx:10-20 | the initial values (idle, 0 left, set 0 of 4, 25 and 5 minutes) satisfy the invariant |
| Session.FirePreservesInv | src/app/page.tsx:272-277 | a scheduled callback that the invariant allows keeps the invariant |
| Session.HandlersPreserveInv | src/app/page.tsx:183-261 | every handler keeps the invariant: time between 0 and the interval length, counter at most the last set, every scheduled switch a non-empty interval of an existing set |
| Session.StartBeginsCycle | src/app/page.tsx:183-194 | start gives work in set 1 with `timeLeft == totalTime == (workTime \|\| 25) * 60`, and at most one request: a `Play` of a work-catalog file at the work volume |
| Session.TickPreservesInv | src/app/page.tsx:266-289 | the interval callback keeps the invariant |
| Session.DrainPreservesInv | src/app/page.tsx:272-277 | running the scheduled timeouts keeps the invariant |
| Session.TickCases | src/app/page.tsx:265-289 | outside work and breaks nothing happens; above one second the time drops by exactly 1; at one second or less it becomes 0, and the end of work schedules the break, the end of a break schedules the next set while the counter is below the number of sets, and the last break ends at once in idle, set 0, with `Stop` |
| Pausing.PauseSilencesAndFreezes | src/app/page.tsx:223-226 | after a pause the speaker is silent whatever was playing, the timer does not move, and pausing again changes nothing |
| Pausing.ResetSilencesAndSettles | src/app/page.tsx:251-261 | after a reset the speaker is silent, the timer does not move, and resetting again changes nothing |
| Pausing.ResumeAtZeroIsNoOp | src/app/page.tsx:228-229 | with nothing left, resuming a paused session changes nothing and plays nothing |
| Pausing.PauseResumeWork | src/app/page.tsx:223-249 | a paused work interval resumes as exactly the session that was paused, with the same request that started it |
| Pausing.PauseResumeBreak | src/app/page.tsx:223-249 | a paused break resumes as a break exactly when its length differs from the work length, and then as exactly the session that was paused with the break sound |
| Pausing.ResumeMistakesEqualBreakForWork | src/app/page.tsx:231-236 | with 5-minute work and 5-minute breaks, a paused break of set 1 resumes as work with the work sound, and its end then begins another full 300-second break, still in set 1 |
| Pausing.ResumeTo | src/app/page.tsx:228-249 | the corrected resume: with time left the recorded channel resumes with its own sound; with none nothing happens |
| Pausing.PauseResumeToRestores | src/app/page.tsx:223-249 | with the channel recorded, pause then resume gives back exactly the paused session, and the speaker plays that channel's sound whatever it played before |
| Pausing.ResetRacesScheduledBreak | src/app/page.tsx:268-272 | a reset between the last tick of a work interval and its scheduled timeout does not hold: the full break still begins, with the break sound |
| Pausing.ResetCancellingHolds | src/app/page.tsx:251-261 | after the corrected reset, nothing scheduled runs, the timer does not move, and the speaker is silent |
| Cycle.Turn | src/app/page.tsx:266-291 | one second of running never changes the settings and leaves nothing scheduled |
| Cycle.RunAdd | src/app/page.tsx:266-291 | running `a` turns and then `b` more is running `a + b` turns |
| Cycle.TurnCountsDown | src/app/page.tsx:287-289 | a turn in the middle of an interval lowers the time by one and changes nothing else |
| Cycle.TurnEndsWork | src/app/page.tsx:270-272 | the last turn of work begins a full break of the same set, with the counter unchanged |
| Cycle.TurnEndsBreak | src/app/page.tsx:273-285 | the last turn of a break begins the next set's full work interval while the counter is below the number of sets, and otherwise goes idle with set 0 |
| Cycle.Countdown | src/app/page.tsx:287-289 | an interval counts down one second per turn, staying in its phase, until one second is left |
| Cycle.WholeInterval | src/app/page.tsx:266-291 | running an interval for its whole length is its countdown followed by its last turn |
| Cycle.WorkInterval | src/app/page.tsx:270-272 | a work interval with `n` seconds left becomes a full break of the same set after exactly `n` turns |
| Cycle.BreakInterval | src/app/page.tsx:273-285 | a break with `n` seconds left becomes the next set's full work interval after exactly `n` turns, or idle with set 0 when no set is left |
| Cycle.OneSet | src/app/page.tsx:196-221 | a full work interval with sets still to come becomes the next set's full work interval after one work length plus one break length |
| Cycle.LiveStep | src/app/page.tsx:266-291 | counting down, work to break, and break to next set each keep the session live with one turn fewer to go |
| Cycle.TurnLive | src/app/page.tsx:266-291 | a turn of a live session either ends the cycle, when one turn was left, or keeps it live with one turn fewer to go |
| Cycle.RunLive | src/app/page.tsx:266-291 | until the cycle ends the session stays live, and the turns still to go fall by one per turn |
| Cycle.RunKeepsSettings | src/app/page.tsx:266-291 | no number of turns changes the settings |
| Cycle.RunFinishes | src/app/page.tsx:279-284 | a live session ends after exactly its remaining turns: idle, no set, nothing left or scheduled |
| Cycle.StartLive | src/app/page.tsx:183-194 | a freshly started session is live with exactly `max(1, totalSets)` full sets to go |
| Cycle.FullCycle | src/app/page.tsx:183-291 | a started cycle lasts at least one turn, is never idle before `max(1, totalSets)` full sets of turns have passed, and is idle with set 0 right then |
| Cycle.SetsAhead | src/app/page.tsx:207-221 | `k` sets run from a full work interval, with that many sets to come, give the full work interval `k` sets later |
| Cycle.SetsChain | src/app/page.tsx:207-221 | each of the next `k` sets leads from one full work interval to the next |
| Cycle.NextSet | src/app/page.tsx:207-221 | one set run from the full work interval `i` sets later gives the interval `i + 1` sets later |
| Cycle.SetBegins | src/app/page.tsx:207-221 | set `k` of a started cycle begins after exactly `k - 1` full sets, with the counter at `k` |
| Cycle.DefaultStart | src/app/page.tsx:183-194 | with default settings and one set, start gives a 1500-second work interval in set 1 |
| Cycle.DefaultWorkEnds | src/app/page.tsx:270-272 | with default settings, 1500 turns after start a 300-second break begins |
| Cycle.DefaultCycleEnds | src/app/page.tsx:279-284 | with default settings and one set, the session is idle with set 0 1800 turns after start |
| Iteration.IterateAdd | src/app/page.tsx:266 | a generic fact behind `Cycle.RunAdd`: `a + b` steps are `a` steps then `b` steps |
| Iteration.IterateDescends | src/app/page.tsx:266 | a generic fact behind `Cycle.RunLive`: while steps are left, a measure that every step lowers by one stays exact and the states stay good |
| Iteration.IterateKeeps | src/app/page.tsx:266 | a generic fact behind `Cycle.RunKeepsSettings`: whatever one step keeps, any number of steps keeps |
| Iteration.BlocksIsProduct | src/app/page.tsx:275 | counting sets one at a time is multiplying |
| Iteration.IterateChain | src/app/page.tsx:266 | a generic fact behind `Cycle.SetsAhead`: if blocks of `len` steps lead along a chain, `k` blocks lead to its `k`-th state |

## Left out

- Rendering, CSS classes and button visibility (the JSX). Handlers are
  modelled as callable in any phase, as the functions themselves are.
- The audio element's mechanics: `src`, `currentTime`, `volume`, the promise
  that `play()` returns with its error message, the `loop` attribute, and
  the `onCanPlay` and `onError` handlers. These are browser calls. Requests
  to the element are `Play` and `Stop` intents with an integer volume
  percent, and `Audio.Hear` is an abstract speaker. The check that
  `audioRef.current` is not null is not modelled, because the element is
  always mounted while the page is shown.
- Wall-clock timing of `setInterval` and `setTimeout`. Ticks and the
  running of scheduled timeouts are discrete steps. A turn assumes the
  100 ms timeout fires before the next one-second tick.
- Clearing and re-creating the interval when the effect re-runs. This is
  transparent to the model, because each tick reads the current phase, set
  counter and number of sets, as the re-created closure does.
- React StrictMode calling the `setTimeLeft` updater twice in development.
  That would schedule the switch twice.
- `getProgress` and `volume / 100`: floating-point arithmetic.
- The random initial choice of break sound: it is nondeterministic, so the
  selected sounds are a `Bgm` parameter of every step.
- The volume sliders (`updateVolume`), the test-play buttons (`playAudio`,
  `stopBgmTest`) and `handleBgmSelection`. None of them is disabled during a
  cycle, so they act on the element during work and breaks too. A new
  selection stops the running sound until the next transition, a slider
  changes its volume, and a test button plays another file. `Audio.Hear`'s
  speaker does not track them. It follows only the requests of the timer's
  handlers. The selection itself is modelled, as the `Bgm` parameter read
  at each transition.
- Clock.FormatTime: the faces of negative counts are modelled, including
  JavaScript's sign rules for `%` (`JsRemainder`) and `toString()`
  (`IntToString`). Nothing about the whole face of a negative count is
  proved. The timer never shows a negative count.

## Findings

| source | as written | input that shows it | evidently intended | confidence | as-written member | corrected member |
|---|---|---|---|---|---|---|
| src/app/page.tsx:251-261 | `resetTimer` does not cancel a `setTimeout` that the interval scheduled in its last tick | reset within 100 ms after the last tick of a work interval | reset leaves the session idle and silent, so no break begins afterwards | not executed; medium, because the window is only 100 ms | Pausing.ResetRacesScheduledBreak | Pausing.ResetCancellingHolds |
| src/app/page.tsx:231-236 | `resumeTimer` takes a paused session to be work whenever `totalTime` equals the work length in seconds | work 5 minutes, break 5 minutes, pause during a break, resume | the paused break resumes as a break | not executed; high | Pausing.ResumeMistakesEqualBreakForWork | Pausing.PauseResumeToRestores |

With equal lengths, a wrongly resumed "work" interval ends by scheduling
another break in the same set. So an extra break is inserted before the set
advances. The corrected
versions are `Session.ResetCancelling` and `Pausing.ResumeTo`. They record
what the code leaves implicit, and the lemmas in the last column prove the
intended property of each.

=== FILE: audio.dfy ===
/** Background music, abstracted to what the timer asks of the one audio
    element: play a preset's file at a volume percent, or stop. */
module Audio {
  import opened Wrappers

  /** A catalog entry: the id the selector stores and the file it plays. */
  datatype Preset = Preset(id: string, url: string)

  /** A request to the audio element. `Play` restarts the element on a new
      source at `volume` percent; `Stop` pauses it and rewinds it. */
  datatype Intent = Play(url: string, volume: int) | Stop

  /** The id whose entry must never be played. */
  const SilenceId: string := "silence"

  /** Music offered for breaks. */
  const BreakPresets: seq<Preset> := [
    Preset("acoustic07", "/audio/break/maou_bgm_acoustic07.mp3"),
    Preset("acoustic16", "/audio/break/maou_bgm_acoustic16.mp3"),
    Preset("acoustic29", "/audio/break/maou_bgm_acoustic29.mp3"),
    Preset("acoustic38", "/audio/break/maou_bgm_acoustic38.mp3"),
    Preset("acoustic41", "/audio/break/maou_bgm_acoustic41.mp3"),
    Preset("acoustic42", "/audio/break/maou_bgm_acoustic42.mp3"),
    Preset("acoustic50", "/audio/break/maou_bgm_acoustic50.mp3"),
    Preset(SilenceId, "generated_silence")
  ]

  /** Sound offered while working. */
  const WorkPresets: seq<Preset> := [
    Preset("white_noise", "/audio/work/white-niose.mp3"),
    Preset("brown_noise", "/audio/work/soft-brown-noise-299934.mp3"),
    Preset(SilenceId, "generated_silence")
  ]

  /** Array.prototype.find by id: the first entry with that id, if any. */
  function Find(presets: seq<Preset>, id: string): (r: Option<Preset>)
    ensures r.Some? ==> r.value in presets && r.value.id == id
    ensures r.None? <==> forall p :: p in presets ==> p.id != id
    ensures |presets| > 0 && presets[0].id == id ==> r == Some(presets[0])
    ensures r.Some? ==> exists k :: 0 <= k < |presets| && r.value == presets[k] &&
                          forall j :: 0 <= j < k ==> presets[j].id != id
    decreases |presets|
  {
    if |presets| == 0 then None
    else if presets[0].id == id then Some(presets[0])
    else Find(presets[1..], id)
  }

  /** What selecting `id` at `volume` asks of the audio element when a channel
      begins: at most one `Play`, never for the silence entry or an id the
      catalog lacks, and only of a catalog file at the requested volume. */
  function BgmIntents(presets: seq<Preset>, id: string, volume: int): (r: seq<Intent>)
    ensures |r| <= 1
    ensures forall i :: i in r ==> i.Play? && i.volume == volume
    ensures r != [] ==> id != SilenceId && exists p :: p in presets && p.id == id && r[0].url == p.url
    ensures r != [] ==> r[0].url != "" && Find(presets, id).Some? && r[0].url == Find(presets, id).value.url
  {
    var preset := Find(presets, id);
    if preset.Some? && preset.value.url != "" && id != SilenceId then
      [Play(preset.value.url, volume)]
    else
      []
  }

  /** Choosing the silence entry never asks anything to play. */
  lemma SilenceNeverPlays(presets: seq<Preset>, volume: int)
    ensures BgmIntents(presets, SilenceId, volume) == []
  {
  }

  /** An id that is not in the catalog never asks anything to play. */
  lemma UnknownNeverPlays(presets: seq<Preset>, id: string, volume: int)
    requires forall p :: p in presets ==> p.id != id
    ensures BgmIntents(presets, id, volume) == []
  {
  }

  /** No two entries of a catalog share an id. */
  predicate DistinctIds(presets: seq<Preset>) {
    forall i, j :: 0 <= i < j < |presets| ==> presets[i].id != presets[j].id
  }

  /** In a catalog without repeated ids, looking up an entry's id finds that
      entry. */
  lemma {:induction false} FindListed(presets: seq<Preset>, k: nat)
    requires DistinctIds(presets) && k < |presets|
    ensures Find(presets, presets[k].id) == Some(presets[k])
    decreases k
  {
    if k > 0 {
      assert presets[0].id != presets[k].id;
      FindListed(presets[1..], k - 1);
    }
  }

  /** In a catalog without repeated ids and without empty files, choosing
      any entry but silence plays that entry's own file. */
  lemma EntriesPlay(presets: seq<Preset>, volume: int)
    requires DistinctIds(presets)
    requires forall k :: 0 <= k < |presets| ==> presets[k].url != ""
    ensures forall k :: 0 <= k < |presets| && presets[k].id != SilenceId ==>
      BgmIntents(presets, presets[k].id, volume) == [Play(presets[k].url, volume)]
  {
    forall k | 0 <= k < |presets| && presets[k].id != SilenceId
      ensures BgmIntents(presets, presets[k].id, volume) == [Play(presets[k].url, volume)]
    {
      FindListed(presets, k);
    }
  }

  /** Both catalogs list each id once and name a file for every entry, so
      every entry but silence plays its own file. */
  lemma CatalogEntriesPlay(volume: int)
    ensures DistinctIds(WorkPresets) && DistinctIds(BreakPresets)
    ensures forall k :: 0 <= k < |WorkPresets| && WorkPresets[k].id != SilenceId ==>
      BgmIntents(WorkPresets, WorkPresets[k].id, volume) == [Play(WorkPresets[k].url, volume)]
    ensures forall k :: 0 <= k < |BreakPresets| && BreakPresets[k].id != SilenceId ==>
      BgmIntents(BreakPresets, BreakPresets[k].id, volume) == [Play(BreakPresets[k].url, volume)]
  {
    EntriesPlay(WorkPresets, volume);
    EntriesPlay(BreakPresets, volume);
  }

  /** The audio element as the listener hears it. */
  datatype Speaker = Silent | Playing(url: string, volume: int)

  /** What one request leaves the element doing: playing the requested file
      at the requested volume, or silent after `Stop`. */
  function Effect(i: Intent): (r: Speaker)
    ensures r == Silent <==> i.Stop?
    ensures i.Play? ==> r.url == i.url && r.volume == i.volume
  {
    match i
    case Play(u, v) => Playing(u, v)
    case Stop => Silent
  }

  /** The speaker after carrying out `intents` in order: the last one wins. */
  function Hear(sp: Speaker, intents: seq<Intent>): (r: Speaker)
    ensures intents == [] ==> r == sp
    ensures intents != [] ==> r == Effect(intents[|intents| - 1])
    decreases |intents|
  {
    if intents == [] then sp else Hear(Effect(intents[0]), intents[1..])
  }
}

=== FILE: clock.dfy ===
/** The "mm:ss" clock face the timer shows for its remaining seconds, and a
    parser for that face, used to show that the rendering loses nothing. */
module Clock {
  import opened Wrappers

  predicate IsDigit(c: char) {
    '0' <= c <= '9'
  }

  predicate AllDigits(s: string) {
    forall i :: 0 <= i < |s| ==> IsDigit(s[i])
  }

  function DigitChar(d: int): (c: char)
    requires 0 <= d < 10
    ensures IsDigit(c)
    ensures c as int - '0' as int == d
  {
    ('0' as int + d) as char
  }

  function DigitValue(c: char): (d: int)
    requires IsDigit(c)
    ensures 0 <= d < 10
    ensures DigitChar(d) == c
  {
    c as int - '0' as int
  }

  /** Decimal rendering of a natural number, no leading zeros, as JavaScript's
      Number.prototype.toString gives it. */
  function Decimal(n: nat): (r: string)
    ensures 1 <= |r|
    ensures AllDigits(r)
    ensures |r| == 1 <==> n < 10
    ensures r[0] == '0' <==> n == 0
    decreases n
  {
    if n < 10 then [DigitChar(n)] else Decimal(n / 10) + [DigitChar(n % 10)]
  }

  /** The value of a string of decimal digits, most significant first. */
  function ValueOf(s: string): nat
    requires AllDigits(s)
  {
    if |s| == 0 then 0 else ValueOf(s[..|s| - 1]) * 10 + DigitValue(s[|s| - 1])
  }

  /** Reading back a decimal rendering gives the number rendered. */
  lemma {:induction false} ValueOfDecimal(n: nat)
    ensures ValueOf(Decimal(n)) == n
    decreases n
  {
    if n >= 10 {
      var d := Decimal(n);
      assert d[..|d| - 1] == Decimal(n / 10);
      ValueOfDecimal(n / 10);
    }
  }

  /** A leading zero does not change the value of a digit string. */
  lemma {:induction false} LeadingZero(s: string)
    requires AllDigits(s)
    ensures AllDigits("0" + s)
    ensures ValueOf("0" + s) == ValueOf(s)
    decreases |s|
  {
    if |s| > 0 {
      var z := "0" + s;
      assert z[..|z| - 1] == "0" + s[..|s| - 1];
      LeadingZero(s[..|s| - 1]);
    }
  }

  /** Number.prototype.toString for an integer: a minus sign exactly for a
      negative number, followed by the digits of its magnitude. */
  function IntToString(n: int): (r: string)
    ensures 1 <= |r|
    ensures r[0] == '-' <==> n < 0
    ensures n >= 0 ==> AllDigits(r) && ValueOf(r) == n
    ensures n < 0 ==> AllDigits(r[1..]) && ValueOf(r[1..]) == -n
    ensures n >= 0 ==> (r[0] == '0' <==> n == 0)
    ensures n < 0 ==> |r| >= 2 && r[1] != '0'
  {
    if n < 0 then
      ValueOfDecimal(-n);
      assert ("-" + Decimal(-n))[1..] == Decimal(-n);
      "-" + Decimal(-n)
    else
      ValueOfDecimal(n);
      Decimal(n)
  }

  /** String.prototype.padStart(2, "0"): zeros are added on the left up to
      length two, and a longer string is kept whole. */
  function PadTwo(s: string): (r: string)
    ensures |r| == if |s| < 2 then 2 else |s|
    ensures r[|r| - |s|..] == s
    ensures forall i :: 0 <= i < |r| - |s| ==> r[i] == '0'
  {
    if |s| >= 2 then s else if |s| == 1 then "0" + s else "00"
  }

  /** JavaScript's `a % b`, whose result takes the sign of the dividend. */
  function JsRemainder(a: int, b: int): (r: int)
    requires b > 0
    ensures a >= 0 ==> r == a % b
    ensures a >= 0 ==> 0 <= r < b
    ensures a < 0 ==> r == -((-a) % b) && -b < r <= 0
  {
    if a >= 0 then a % b else -((-a) % b)
  }

  /** The clock face: Math.floor(seconds / 60) and seconds % 60, each padded to
      two digits. Dafny's `/` with a positive divisor rounds down, as
      Math.floor does. */
  function FormatTime(seconds: int): (r: string)
    ensures seconds >= 0 ==> |r| >= 5 && r[|r| - 3] == ':'
  {
    PadTwo(IntToString(seconds / 60)) + ":" + PadTwo(IntToString(JsRemainder(seconds, 60)))
  }

  /** A padded rendering of a natural number is all digits and reads back as
      that number; below 100 it is exactly two characters. */
  lemma PaddedValue(n: nat)
    ensures AllDigits(PadTwo(Decimal(n)))
    ensures ValueOf(PadTwo(Decimal(n))) == n
    ensures |PadTwo(Decimal(n))| == if n < 100 then 2 else |Decimal(n)|
  {
    var d := Decimal(n);
    ValueOfDecimal(n);
    if n < 10 {
      LeadingZero(d);
    } else if n < 100 {
      assert Decimal(n / 10) == [DigitChar(n / 10)];
    } else {
      assert |Decimal(n / 10)| >= 2;
    }
  }

  /** Cutting `m + ":" + q`, with `q` two characters long, at its colon gives
      back `m` and `q`. */
  lemma ColonSplit(m: string, q: string)
    requires |q| == 2
    ensures var r := m + ":" + q;
      && |r| == |m| + 3 && r[|r| - 3] == ':' && r[..|r| - 3] == m && r[|r| - 2..] == q
  {
    var r := m + ":" + q;
    assert r[..|r| - 3] == m;
    assert r[|r| - 2..] == q;
  }

  /** For a non-negative count the face is the padded minutes, a colon and
      the padded seconds: the minutes field is at least two digits and never
      cut short and reads back as the whole minutes; the seconds field is
      exactly two digits and reads back as the remaining seconds. */
  lemma FormatTimeFields(seconds: int)
    requires seconds >= 0
    ensures var mm, ss := PadTwo(Decimal(seconds / 60)), PadTwo(Decimal(seconds % 60));
      && FormatTime(seconds) == mm + ":" + ss
      && AllDigits(mm) && ValueOf(mm) == seconds / 60
      && |mm| == (if seconds / 60 < 100 then 2 else |Decimal(seconds / 60)|)
      && AllDigits(ss) && |ss| == 2 && ValueOf(ss) == seconds % 60
  {
    PaddedValue(seconds / 60);
    PaddedValue(seconds % 60);
  }

  /** Reads a clock face back into seconds: digits, a colon, then exactly two
      digits worth less than 60. */
  function ParseClock(t: string): (r: Option<nat>)
    ensures r.Some? ==> |t| >= 4 && t[|t| - 3] == ':'
  {
    if |t| < 4 || t[|t| - 3] != ':' then None
    else
      var mm := t[..|t| - 3];
      var ss := t[|t| - 2..];
      if !AllDigits(mm) || !AllDigits(ss) || ValueOf(ss) >= 60 then None
      else Some(ValueOf(mm) * 60 + ValueOf(ss))
  }

  /** Digits worth `mins`, a colon and two digits worth `secs`, below 60,
      parse as `mins` minutes and `secs` seconds. */
  lemma ParseJoined(mm: string, ss: string, mins: nat, secs: nat)
    requires |mm| >= 1 && AllDigits(mm) && ValueOf(mm) == mins
    requires |ss| == 2 && AllDigits(ss) && ValueOf(ss) == secs < 60
    ensures ParseClock(mm + ":" + ss) == Some(mins * 60 + secs)
  {
    ColonSplit(mm, ss);
  }

  /** Whole minutes and the seconds left over make up the count. */
  lemma MinutesAndSeconds(seconds: int)
    ensures (seconds / 60) * 60 + seconds % 60 == seconds
  {
  }

  /** The clock face of any non-negative count reads back as that count. */
  lemma FormatTimeRoundTrip(seconds: int)
    requires seconds >= 0
    ensures ParseClock(FormatTime(seconds)) == Some(seconds)
  {
    var mins, secs := seconds / 60, seconds % 60;
    var mm, ss := PadTwo(Decimal(mins)), PadTwo(Decimal(secs));
    calc {
      ParseClock(FormatTime(seconds));
      { FormatTimeFields(seconds); }
      ParseClock(mm + ":" + ss);
      { FormatTimeFields(seconds); ParseJoined(mm, ss, mins, secs); }
      Some(mins * 60 + secs);
      { MinutesAndSeconds(seconds); }
      Some(seconds);
    }
  }

  /** Distinct non-negative counts never share a clock face. */
  lemma FormatTimeInjective(a: int, b: int)
    requires a >= 0 && b >= 0
    ensures FormatTime(a) == FormatTime(b) <==> a == b
  {
    FormatTimeRoundTrip(a);
    FormatTimeRoundTrip(b);
  }

  /** Two hours show as "120:00": the minutes are padded, never truncated. */
  lemma TwoHoursFace()
    ensures FormatTime(7200) == "120:00"
  {
    assert Decimal(12) == Decimal(1) + "2";
    assert Decimal(120) == Decimal(12) + "0";
    assert IntToString(7200 / 60) == "120";
    assert IntToString(JsRemainder(7200, 60)) == "0";
  }

  /** Sixty-five seconds show as "01:05": both fields are padded to two
      digits. */
  lemma MinuteAndFiveFace()
    ensures FormatTime(65) == "01:05"
  {
    assert IntToString(65 / 60) == "1";
    assert IntToString(JsRemainder(65, 60)) == "5";
  }
}

=== FILE: cycle.dfy ===
/** Whole runs of the timer. A turn is one interval tick followed by the
    timeouts it scheduled: the 100 ms timeout is assumed to fire before the next
    one-second tick. */
module Cycle {
  import opened Session
  import opened Iteration

  /** One second of running time. */
  function Turn(s: Session, bgm: Bgm): (r: Step)
    ensures SameSettings(s, r.next)
    ensures r.next.pending == []
  {
    var t := Tick(s, bgm);
    var d := Drain(t.next);
    Step(d.next, t.intents + d.intents)
  }

  /** The session after one turn. */
  function TurnNext(s: Session, bgm: Bgm): Session {
    Turn(s, bgm).next
  }

  /** The session after `n` turns. */
  function Run(s: Session, bgm: Bgm, n: nat): Session {
    Iterate(TurnNext, bgm, s, n)
  }

  /** Running is one turn followed by the rest of the run. */
  lemma RunUnfold(s: Session, bgm: Bgm, n: nat)
    requires n > 0
    ensures Run(s, bgm, n) == Run(Turn(s, bgm).next, bgm, n - 1)
  {
  }

  /** Running `a` turns and then `b` more is running `a + b` turns. */
  lemma RunAdd(s: Session, bgm: Bgm, a: nat, b: nat)
    ensures Run(s, bgm, a + b) == Run(Run(s, bgm, a), bgm, b)
  {
    IterateAdd(TurnNext, bgm, s, a, b);
  }

  /** One turn of running is a turn. */
  lemma RunOne(s: Session, bgm: Bgm)
    ensures Run(s, bgm, 1) == Turn(s, bgm).next
  {
  }

  /** A turn in the middle of an interval counts down by one second. */
  lemma TurnCountsDown(s: Session, bgm: Bgm)
    requires s.phase == Work || s.phase == Break
    requires s.pending == [] && s.timeLeft > 1
    ensures Turn(s, bgm).next == s.(timeLeft := s.timeLeft - 1)
  {
  }

  /** The last turn of a work interval begins a full break in the same set. */
  lemma TurnEndsWork(s: Session, bgm: Bgm)
    requires s.phase == Work && s.pending == [] && s.timeLeft <= 1
    ensures Turn(s, bgm).next ==
      s.(phase := Break, timeLeft := BreakSeconds(s.breakTime), totalTime := BreakSeconds(s.breakTime))
  {
  }

  /** The last turn of a break begins the next set's full work interval
      while the counter is below the number of sets, and otherwise ends the
      cycle. */
  lemma TurnEndsBreak(s: Session, bgm: Bgm)
    requires s.phase == Break && s.pending == [] && s.timeLeft <= 1
    ensures s.currentSet < s.totalSets ==> (Turn(s, bgm).next ==
      s.(phase := Work, currentSet := s.currentSet + 1,
         timeLeft := WorkSeconds(s.workTime), totalTime := WorkSeconds(s.workTime)))
    ensures s.currentSet >= s.totalSets ==> (Turn(s, bgm).next ==
      s.(phase := Idle, timeLeft := 0, currentSet := 0))
  {
  }

  /** A running interval with nothing scheduled counts down by one per turn
      and stays in its phase, with everything else unchanged, until one
      second is left. */
  lemma {:induction false} Countdown(s: Session, bgm: Bgm)
    requires s.phase == Work || s.phase == Break
    requires s.pending == [] && s.timeLeft >= 1
    ensures Run(s, bgm, s.timeLeft - 1) == s.(timeLeft := 1)
    decreases s.timeLeft
  {
    if s.timeLeft > 1 {
      TurnCountsDown(s, bgm);
      RunUnfold(s, bgm, s.timeLeft - 1);
      Countdown(s.(timeLeft := s.timeLeft - 1), bgm);
    }
  }

  /** Running a whole interval is counting it down and then its last turn. */
  lemma WholeInterval(s: Session, bgm: Bgm)
    requires s.phase == Work || s.phase == Break
    requires s.pending == [] && s.timeLeft >= 1
    ensures Run(s, bgm, s.timeLeft) == Turn(s.(timeLeft := 1), bgm).next
  {
    var m: nat := s.timeLeft - 1;
    var x := s.(timeLeft := 1);
    calc {
      Run(s, bgm, s.timeLeft);
      { RunAdd(s, bgm, m, 1); }
      Run(Run(s, bgm, m), bgm, 1);
      { Countdown(s, bgm); }
      Run(x, bgm, 1);
      { RunOne(x, bgm); }
      Turn(x, bgm).next;
    }
  }

  /** A work interval, run for its length, turns into a full break of the same
      set. */
  lemma WorkInterval(s: Session, bgm: Bgm)
    requires s.phase == Work && s.pending == [] && s.timeLeft >= 1
    ensures Run(s, bgm, s.timeLeft) == s.(phase := Break, timeLeft := BreakSeconds(s.breakTime),
                                          totalTime := BreakSeconds(s.breakTime))
  {
    WholeInterval(s, bgm);
    TurnEndsWork(s.(timeLeft := 1), bgm);
  }

  /** A break, run for its length, begins the next set's full work interval
      while the counter is below the number of sets, and otherwise ends the
      cycle: idle, counter 0, nothing left. */
  lemma BreakInterval(s: Session, bgm: Bgm)
    requires s.phase == Break && s.pending == [] && s.timeLeft >= 1
    ensures s.currentSet < s.totalSets ==>
      Run(s, bgm, s.timeLeft) == s.(phase := Work, currentSet := s.currentSet + 1,
                                    timeLeft := WorkSeconds(s.workTime), totalTime := WorkSeconds(s.workTime))
    ensures s.currentSet >= s.totalSets ==>
      Run(s, bgm, s.timeLeft) == s.(phase := Idle, timeLeft := 0, currentSet := 0)
  {
    WholeInterval(s, bgm);
    TurnEndsBreak(s.(timeLeft := 1), bgm);
  }

  /** A full work interval with sets still to come, run for one set's length,
      is the next set's full work interval. */
  lemma OneSet(s: Session, bgm: Bgm)
    requires s.phase == Work && s.pending == []
    requires s.timeLeft == s.totalTime == WorkSeconds(s.workTime) >= 1
    requires BreakSeconds(s.breakTime) >= 1
    requires s.currentSet < s.totalSets
    ensures Run(s, bgm, WorkSeconds(s.workTime) + BreakSeconds(s.breakTime)) == s.(currentSet := s.currentSet + 1)
  {
    WorkInterval(s, bgm);
    var b := s.(phase := Break, timeLeft := BreakSeconds(s.breakTime), totalTime := BreakSeconds(s.breakTime));
    BreakInterval(b, bgm);
    RunAdd(s, bgm, WorkSeconds(s.workTime), BreakSeconds(s.breakTime));
  }

  /** A running session with nothing scheduled, in a set that exists, with
      its interval at its own length and time left on it. */
  predicate Live(s: Session) {
    && Configured(s)
    && s.pending == []
    && 1 <= s.currentSet <= LastSet(s.totalSets)
    && (|| (s.phase == Work && s.totalTime == WorkSeconds(s.workTime))
        || (s.phase == Break && s.totalTime == BreakSeconds(s.breakTime)))
    && 1 <= s.timeLeft <= s.totalTime
  }

  /** Seconds in one set. */
  function SetSeconds(s: Session): int {
    WorkSeconds(s.workTime) + BreakSeconds(s.breakTime)
  }

  /** Turns until the cycle ends: the rest of this interval, the break of this
      set if it is still working, and every later set in full. */
  function Remaining(s: Session): int {
    s.timeLeft
    + (if s.phase == Work then BreakSeconds(s.breakTime) else 0)
    + Blocks(LastSet(s.totalSets) - s.currentSet, SetSeconds(s))
  }

  /** How a cycle ends: idle, no set, nothing left, the last break's length
      still shown as the total. */
  function Finished(s: Session): Session {
    s.(phase := Idle, timeLeft := 0, totalTime := BreakSeconds(s.breakTime), currentSet := 0, pending := [])
  }

  /** The three ways a turn moves a live session on without ending the
      cycle (count down, work to break, break to next set) leave it live, with
      one turn fewer to go. */
  lemma LiveStep(s: Session, t: Session)
    requires Live(s)
    requires || (s.timeLeft > 1 && t == s.(timeLeft := s.timeLeft - 1))
             || (s.timeLeft == 1 && s.phase == Work &&
                 t == s.(phase := Break, timeLeft := BreakSeconds(s.breakTime),
                         totalTime := BreakSeconds(s.breakTime)))
             || (s.timeLeft == 1 && s.phase == Break && s.currentSet < s.totalSets &&
                 t == s.(phase := Work, currentSet := s.currentSet + 1,
                         timeLeft := WorkSeconds(s.workTime), totalTime := WorkSeconds(s.workTime)))
    ensures Live(t)
    ensures Remaining(t) == Remaining(s) - 1 >= 1
  {
    var k, last, p := s.currentSet, LastSet(s.totalSets), SetSeconds(s);
    if s.timeLeft == 1 && s.phase == Break {
      assert Blocks(last - k, p) == Blocks(last - (k + 1), p) + p;
    }
  }

  /** One turn of a live session either ends the cycle, when one turn was
      left, or leaves it live with one turn fewer to go. */
  lemma TurnLive(s: Session, bgm: Bgm)
    requires Live(s)
    ensures Remaining(s) >= 1
    ensures Remaining(s) == 1 ==> Turn(s, bgm).next == Finished(s)
    ensures Remaining(s) > 1 ==> Live(Turn(s, bgm).next) && Remaining(Turn(s, bgm).next) == Remaining(s) - 1
  {
    var t := Turn(s, bgm).next;
    if s.timeLeft > 1 {
      TurnCountsDown(s, bgm);
      LiveStep(s, t);
    } else if s.phase == Work {
      TurnEndsWork(s, bgm);
      LiveStep(s, t);
    } else if s.currentSet < s.totalSets {
      TurnEndsBreak(s, bgm);
      LiveStep(s, t);
    } else {
      TurnEndsBreak(s, bgm);
      assert s.currentSet == LastSet(s.totalSets);
      assert Remaining(s) == 1;
    }
  }

  /** Every turn of a live session with more than one turn to go leaves it
      live with one turn fewer to go. */
  lemma TurnDescends(bgm: Bgm)
    ensures Descends(TurnNext, bgm, Live, Remaining)
  {
    forall x | Live(x) && Remaining(x) > 1
      ensures Live(TurnNext(x, bgm)) && Remaining(TurnNext(x, bgm)) == Remaining(x) - 1
    {
      TurnLive(x, bgm);
    }
  }

  /** Until the cycle ends, every turn leaves the session live, and counts the
      turns still to go down by one. */
  lemma RunLive(s: Session, bgm: Bgm, j: nat)
    requires Live(s) && j < Remaining(s)
    ensures Live(Run(s, bgm, j))
    ensures Remaining(Run(s, bgm, j)) == Remaining(s) - j
  {
    TurnDescends(bgm);
    IterateDescends(TurnNext, bgm, Live, Remaining, s, j);
  }

  /** The settings of a session: work minutes, break minutes, sets. */
  function SettingsOf(s: Session): (int, int, int) {
    (s.workTime, s.breakTime, s.totalSets)
  }

  /** No number of turns changes the settings. */
  lemma RunKeepsSettings(s: Session, bgm: Bgm, n: nat)
    ensures SameSettings(s, Run(s, bgm, n))
  {
    forall x | true
      ensures SettingsOf(TurnNext(x, bgm)) == SettingsOf(x)
    {
    }
    IterateKeeps(TurnNext, bgm, SettingsOf, s, n);
  }

  /** A live session finishes after exactly its remaining turns. */
  lemma RunFinishes(s: Session, bgm: Bgm)
    requires Live(s)
    ensures Remaining(s) >= 1
    ensures Run(s, bgm, Remaining(s)) == Finished(s)
  {
    TurnLive(s, bgm);
    var m: nat := Remaining(s) - 1;
    var y := Run(s, bgm, m);
    RunLive(s, bgm, m);
    RunKeepsSettings(s, bgm, m);
    calc {
      Run(s, bgm, Remaining(s));
      { RunAdd(s, bgm, m, 1); }
      Run(y, bgm, 1);
      { RunOne(y, bgm); }
      Turn(y, bgm).next;
      { TurnLive(y, bgm); }
      Finished(y);
      Finished(s);
    }
  }

  /** A session started with nothing scheduled is live, with exactly
      `LastSet(totalSets)` full sets to go. */
  lemma StartLive(s: Session, bgm: Bgm)
    requires Configured(s) && s.pending == []
    ensures Live(Start(s, bgm).next)
    ensures Remaining(Start(s, bgm).next) == LastSet(s.totalSets) * SetSeconds(s)
  {
    var t := Start(s, bgm).next;
    var last, p := LastSet(s.totalSets), SetSeconds(s);
    assert Remaining(t) == Blocks(last - 1, p) + p == Blocks(last, p);
    BlocksIsProduct(last, p);
  }

  /** A session started with nothing scheduled and with settings the inputs
      allow runs exactly `LastSet(totalSets)` sets of work and break: it is
      live, never idle, for every turn before `LastSet(totalSets)` full sets
      have elapsed, and idle with the counter back at 0 right then. */
  lemma FullCycle(s: Session, bgm: Bgm)
    requires Configured(s) && s.pending == []
    ensures LastSet(s.totalSets) * SetSeconds(s) >= 1
    ensures var t := Start(s, bgm).next;
      var total := LastSet(s.totalSets) * SetSeconds(s);
      && (forall j: nat :: j < total ==> Live(Run(t, bgm, j)) && Run(t, bgm, j).phase != Idle)
      && Run(t, bgm, total) == Finished(t)
      && Run(t, bgm, total).phase == Idle && Run(t, bgm, total).currentSet == 0
  {
    var t := Start(s, bgm).next;
    StartLive(s, bgm);
    forall j: nat | j < Remaining(t)
      ensures Live(Run(t, bgm, j)) && Run(t, bgm, j).phase != Idle
    {
      RunLive(t, bgm, j);
    }
    RunFinishes(t, bgm);
  }

  /** `k` more full sets from a full work interval, with that many sets still
      to come, is the full work interval `k` sets later. */
  lemma SetsAhead(w: Session, bgm: Bgm, k: nat)
    requires Configured(w) && w.phase == Work && w.pending == []
    requires w.timeLeft == w.totalTime == WorkSeconds(w.workTime)
    requires k > 0 ==> w.currentSet + k <= w.totalSets
    ensures Run(w, bgm, Blocks(k, SetSeconds(w))) == w.(currentSet := w.currentSet + k)
  {
    SetsChain(w, bgm, k);
    var later := (i: nat) => Later(w, i);
    assert later(0) == w;
    IterateChain(TurnNext, bgm, later, SetSeconds(w), k);
  }

  /** The full work interval of `w`, `i` sets later. */
  function Later(w: Session, i: nat): Session {
    w.(currentSet := w.currentSet + i)
  }

  /** Each of the next `k` sets leads from one full work interval to the
      next. */
  lemma SetsChain(w: Session, bgm: Bgm, k: nat)
    requires Configured(w) && w.phase == Work && w.pending == []
    requires w.timeLeft == w.totalTime == WorkSeconds(w.workTime)
    requires k > 0 ==> w.currentSet + k <= w.totalSets
    ensures forall i: nat :: i < k ==> Iterate(TurnNext, bgm, Later(w, i), SetSeconds(w)) == Later(w, i + 1)
  {
    forall i: nat | i < k
      ensures Iterate(TurnNext, bgm, Later(w, i), SetSeconds(w)) == Later(w, i + 1)
    {
      NextSet(w, bgm, i);
    }
  }

  /** One more set from a full work interval: one set's length from the
      interval `i` sets later is the interval `i + 1` sets later. */
  lemma NextSet(w: Session, bgm: Bgm, i: nat)
    requires Configured(w) && w.phase == Work && w.pending == []
    requires w.timeLeft == w.totalTime == WorkSeconds(w.workTime)
    requires w.currentSet + i < w.totalSets
    ensures Run(Later(w, i), bgm, SetSeconds(w)) == Later(w, i + 1)
  {
    OneSet(Later(w, i), bgm);
  }

  /** Set `k` of a started session begins after `k - 1` full sets: a full work
      interval with the counter at `k`. */
  lemma SetBegins(s: Session, bgm: Bgm, k: int)
    requires Configured(s) && s.pending == []
    requires 1 <= k <= LastSet(s.totalSets)
    ensures var t := Start(s, bgm).next;
      Run(t, bgm, Blocks(k - 1, SetSeconds(s))) == t.(currentSet := k)
  {
    SetsAhead(Start(s, bgm).next, bgm, k - 1);
  }

  /** With the default settings and one set, starting gives a 25-minute work
      interval in set 1. */
  lemma DefaultStart(bgm: Bgm)
    ensures Start(Initial.(totalSets := 1), bgm).next == Session(Work, 1500, 1500, 1, 1, 25, 5, [])
  {
  }

  /** The default work interval of 25 minutes ends after 1500 turns in a
      break of 300 seconds in the same set. */
  lemma DefaultWorkEnds(bgm: Bgm)
    ensures var t := Start(Initial.(totalSets := 1), bgm).next;
      Run(t, bgm, 1500) == t.(phase := Break, timeLeft := 300, totalTime := 300)
  {
    DefaultStart(bgm);
    WorkInterval(Session(Work, 1500, 1500, 1, 1, 25, 5, []), bgm);
  }

  /** With the default settings and one set, 1800 turns after the start the
      session is idle with the counter back at 0. */
  lemma DefaultCycleEnds(bgm: Bgm)
    ensures var t := Start(Initial.(totalSets := 1), bgm).next;
      Run(t, bgm, 1800).phase == Idle && Run(t, bgm, 1800).currentSet == 0
  {
    var s := Initial.(totalSets := 1);
    assert LastSet(s.totalSets) * SetSeconds(s) == 1800;
    FullCycle(s, bgm);
  }
}

=== FILE: iteration.dfy ===
/** Repeating a step function. */
module Iteration {
  /** `s` after `n` applications of `f` with the fixed argument `p`. */
  function Iterate<S, P>(f: (S, P) -> S, p: P, s: S, n: nat): S
    decreases n
  {
    if n == 0 then s else Iterate(f, p, f(s, p), n - 1)
  }

  lemma {:induction false} IterateAdd<S, P>(f: (S, P) -> S, p: P, s: S, a: nat, b: nat)
    ensures Iterate(f, p, s, a + b) == Iterate(f, p, Iterate(f, p, s, a), b)
    decreases a
  {
    if a > 0 {
      IterateAdd(f, p, f(s, p), a - 1, b);
    }
  }

  /** From every `good` state with more than one step to go, a step leads to
      a `good` state with one step fewer to go. */
  ghost predicate Descends<S(!new), P>(f: (S, P) -> S, p: P, good: S -> bool, rem: S -> int) {
    forall x :: good(x) && rem(x) > 1 ==> good(f(x, p)) && rem(f(x, p)) == rem(x) - 1
  }

  /** While steps are left, iterating keeps a descending measure exact. */
  lemma {:induction false} IterateDescends<S(!new), P>(f: (S, P) -> S, p: P, good: S -> bool, rem: S -> int, s: S, j: nat)
    requires Descends(f, p, good, rem)
    requires good(s) && j < rem(s)
    ensures good(Iterate(f, p, s, j))
    ensures rem(Iterate(f, p, s, j)) == rem(s) - j
    decreases j
  {
    if j > 0 {
      IterateDescends(f, p, good, rem, f(s, p), j - 1);
    }
  }

  /** Whatever a step keeps, iterating keeps. */
  lemma {:induction false} IterateKeeps<S(!new), P, K>(f: (S, P) -> S, p: P, key: S -> K, s: S, n: nat)
    requires forall x :: key(f(x, p)) == key(x)
    ensures key(Iterate(f, p, s, n)) == key(s)
    decreases n
  {
    if n > 0 {
      IterateKeeps(f, p, key, f(s, p), n - 1);
    }
  }

  /** `n` blocks of `len` steps, counted one block at a time. */
  function Blocks(n: int, len: int): (r: int)
    ensures len >= 0 ==> r >= 0
    decreases n
  {
    if n <= 0 then 0 else Blocks(n - 1, len) + len
  }

  /** Counting blocks one at a time is multiplying. */
  lemma {:induction false} BlocksIsProduct(n: nat, len: int)
    ensures Blocks(n, len) == n * len
  {
    if n > 0 {
      BlocksIsProduct(n - 1, len);
    }
  }

  /** When `len` steps lead from each state of a chain to the next one,
      `k` blocks of `len` steps lead from its first state to state `k`. */
  lemma {:induction false} IterateChain<S, P>(f: (S, P) -> S, p: P, chain: nat -> S, len: nat, k: nat)
    requires forall i: nat :: i < k ==> Iterate(f, p, chain(i), len) == chain(i + 1)
    ensures Iterate(f, p, chain(0), Blocks(k, len)) == chain(k)
    decreases k
  {
    if k > 0 {
      IterateChain(f, p, chain, len, k - 1);
      IterateAdd(f, p, chain(0), Blocks(k - 1, len), len);
    }
  }
}

=== FILE: pausing.dfy ===
/** Pausing, resuming and resetting: what each keeps, what it silences, which
    channel comes back, and the two places where the handlers as written part
    from what they evidently mean to do. */
module Pausing {
  import opened Audio
  import opened Session

  /** A paused session is silent whatever was playing, the timer does not run
      while paused, and pausing twice is the same as pausing once. */
  lemma PauseSilencesAndFreezes(s: Session, sp: Speaker, bgm: Bgm)
    ensures Hear(sp, Pause(s).intents) == Silent
    ensures Tick(Pause(s).next, bgm) == Step(Pause(s).next, [])
    ensures Pause(Pause(s).next).next == Pause(s).next
  {
  }

  /** A reset session is silent whatever was playing, idle with nothing left
      to count, and resetting twice is the same as resetting once. */
  lemma ResetSilencesAndSettles(s: Session, sp: Speaker, bgm: Bgm)
    ensures Hear(sp, Reset(s).intents) == Silent
    ensures Tick(Reset(s).next, bgm) == Step(Reset(s).next, [])
    ensures Reset(Reset(s).next).next == Reset(s).next
  {
  }

  /** With nothing left on the clock, resume changes nothing and plays
      nothing, even while paused. */
  lemma ResumeAtZeroIsNoOp(s: Session, bgm: Bgm)
    requires s.timeLeft == 0
    ensures Resume(Pause(s).next, bgm) == Step(Pause(s).next, [])
  {
  }

  /** A paused work interval resumes as work: the session is exactly the one
      that was paused, and the work sound is asked for again, the same request
      that began the interval. */
  lemma PauseResumeWork(s: Session, bgm: Bgm)
    requires s.phase == Work && s.timeLeft > 0
    requires s.totalTime == WorkSeconds(s.workTime)
    ensures Resume(Pause(s).next, bgm) == Step(s, WorkBgm(bgm))
    ensures Resume(Pause(s).next, bgm).intents == Start(s, bgm).intents
  {
  }

  /** A paused break resumes as a break exactly when the break's length in
      seconds differs from the work length; otherwise it resumes as work. */
  lemma PauseResumeBreak(s: Session, bgm: Bgm)
    requires s.phase == Break && s.timeLeft > 0
    requires s.totalTime == BreakSeconds(s.breakTime)
    ensures Resume(Pause(s).next, bgm).next.phase == Break <==>
            BreakSeconds(s.breakTime) != WorkSeconds(s.workTime)
    ensures BreakSeconds(s.breakTime) != WorkSeconds(s.workTime) ==>
            Resume(Pause(s).next, bgm) == Step(s, BreakBgm(bgm))
  {
  }

  /** Five-minute work and five-minute breaks: a break paused with time left
      resumes as work, with the work sound, and its end will then begin
      another break of the same set instead of the next set. */
  lemma ResumeMistakesEqualBreakForWork(bgm: Bgm, left: int)
    requires 0 < left <= 300
    ensures var s := Session(Break, left, 300, 1, 4, 5, 5, []);
      && Resume(Pause(s).next, bgm) == Step(s.(phase := Work), WorkBgm(bgm))
      && Drain(Tick(s.(phase := Work, timeLeft := 1), bgm).next).next.phase == Break
      && Drain(Tick(s.(phase := Work, timeLeft := 1), bgm).next).next.currentSet == 1
      && Drain(Tick(s.(phase := Work, timeLeft := 1), bgm).next).next.timeLeft == 300
  {
    var s := Session(Break, left, 300, 1, 4, 5, 5, []);
    assert WorkSeconds(5) == 300;
  }

  /** resumeTimer as intended: the channel is the one that was running when
      the session was paused, recorded then rather than guessed afterwards. */
  function ResumeTo(s: Session, bgm: Bgm, paused: Phase): (r: Step)
    ensures s.timeLeft <= 0 ==> r == Step(s, [])
    ensures s.timeLeft > 0 && paused == Break ==> r == Step(s.(phase := Break), BreakBgm(bgm))
    ensures s.timeLeft > 0 && paused != Break ==> r == Step(s.(phase := Work), WorkBgm(bgm))
  {
    if s.timeLeft > 0 then
      var channel := if paused == Break then Break else Work;
      Step(s.(phase := channel), ChannelBgm(channel, bgm))
    else
      Step(s, [])
  }

  /** With the channel recorded, pause then resume gives back exactly the
      session that was paused and the sound of its own channel, whatever the
      lengths of work and break. */
  lemma PauseResumeToRestores(s: Session, bgm: Bgm, sp: Speaker)
    requires s.phase == Work || s.phase == Break
    requires s.timeLeft > 0
    ensures ResumeTo(Pause(s).next, bgm, s.phase) == Step(s, ChannelBgm(s.phase, bgm))
    ensures Hear(sp, Pause(s).intents + ResumeTo(Pause(s).next, bgm, s.phase).intents) ==
            Hear(Silent, ChannelBgm(s.phase, bgm))
  {
    var p := Pause(s);
    var q := ResumeTo(p.next, bgm, s.phase);
    if q.intents == [] {
      assert p.intents + q.intents == [Stop];
    } else {
      assert (p.intents + q.intents)[|p.intents + q.intents| - 1] == q.intents[|q.intents| - 1];
    }
  }

  /** A reset in the tenth of a second between the last tick of a work
      interval and its scheduled break does not hold: the break still begins,
      at full length and with the break sound, after the reset. */
  lemma ResetRacesScheduledBreak(s: Session, bgm: Bgm)
    requires s.phase == Work && s.timeLeft <= 1 && s.pending == []
    ensures var after := Drain(Reset(Tick(s, bgm).next).next);
      && after.next.phase == Break
      && after.next.timeLeft == BreakSeconds(s.breakTime)
      && after.intents == BreakBgm(bgm)
  {
  }

  /** With the scheduled timeouts cancelled, nothing can start after a reset:
      running whatever was scheduled leaves the session idle and silent. */
  lemma ResetCancellingHolds(s: Session, bgm: Bgm, sp: Speaker)
    ensures Drain(ResetCancelling(s).next) == Step(ResetCancelling(s).next, [])
    ensures Tick(ResetCancelling(s).next, bgm) == Step(ResetCancelling(s).next, [])
    ensures Hear(sp, ResetCancelling(s).intents) == Silent
  {
  }
}

=== FILE: session.dfy ===
/** The Pomodoro session lifted out of the page component: an immutable
    record, and one function per handler returning the next record together
    with what it asks of the audio element.

    The interval callback does not switch from work to break, or from break to
    the next set, itself: it schedules the switch with a 100 ms timeout. Such a
    scheduled callback is a `Deferred` in the record's `pending` queue, carrying
    the values its closure captured when it was scheduled; `Drain` runs the
    queue. */
module Session {
  import opened Audio
  import Settings

  datatype Phase = Idle | Work | Break | Paused

  /** The selected sound and volume percent of each channel. */
  datatype Bgm = Bgm(workId: string, workVolume: int, breakId: string, breakVolume: int)

  /** A scheduled timeout: begin a break of `seconds`, or begin set `setNumber`
      with a work interval of `seconds`, asking `bgm` of the audio element. */
  datatype Deferred =
    | BeginBreak(seconds: int, bgm: seq<Intent>)
    | BeginNextSet(setNumber: int, seconds: int, bgm: seq<Intent>)

  /** `workTime`, `breakTime` are minutes, `timeLeft`, `totalTime` seconds. */
  datatype Session = Session(
    phase: Phase,
    timeLeft: int,
    totalTime: int,
    currentSet: int,
    totalSets: int,
    workTime: int,
    breakTime: int,
    pending: seq<Deferred>)

  /** The session after a handler, and what the handler asked of the audio
      element, in order. */
  datatype Step = Step(next: Session, intents: seq<Intent>)

  /** The session before anything has happened. */
  const Initial: Session := Session(Idle, 0, 0, 0, 4, 25, 5, [])

  /** JavaScript's `minutes || fallback` on a number: 0 counts as unset. */
  function OrDefault(v: int, fallback: int): (r: int)
    ensures v != 0 ==> r == v
    ensures v == 0 ==> r == fallback
  {
    if v == 0 then fallback else v
  }

  /** Length of a work interval in seconds; 0 minutes means 25. */
  function WorkSeconds(workTime: int): (r: int)
    ensures Settings.Admissible(Settings.WorkMinutes, workTime) ==> 60 <= r <= 7200 && r % 60 == 0
    ensures workTime != 0 ==> r == workTime * 60
    ensures workTime == 0 ==> r == 25 * 60
  {
    OrDefault(workTime, 25) * 60
  }

  /** Length of a break in seconds; 0 minutes means 5. */
  function BreakSeconds(breakTime: int): (r: int)
    ensures Settings.Admissible(Settings.BreakMinutes, breakTime) ==> 60 <= r <= 3600 && r % 60 == 0
    ensures breakTime != 0 ==> r == breakTime * 60
    ensures breakTime == 0 ==> r == 5 * 60
  {
    OrDefault(breakTime, 5) * 60
  }

  /** The number of the last set a cycle runs: the first set always runs. */
  function LastSet(totalSets: int): (r: int)
    ensures r >= 1 && r >= totalSets
    ensures totalSets >= 1 ==> r == totalSets
    ensures totalSets < 1 ==> r == 1
  {
    if totalSets < 1 then 1 else totalSets
  }

  function WorkBgm(bgm: Bgm): seq<Intent> {
    BgmIntents(WorkPresets, bgm.workId, bgm.workVolume)
  }

  function BreakBgm(bgm: Bgm): seq<Intent> {
    BgmIntents(BreakPresets, bgm.breakId, bgm.breakVolume)
  }

  /** The sound of a channel: the break's for `Break`, the work's otherwise. */
  function ChannelBgm(channel: Phase, bgm: Bgm): seq<Intent> {
    if channel == Break then BreakBgm(bgm) else WorkBgm(bgm)
  }

  /** The settings a session runs with are ones the inputs can produce. */
  predicate Configured(s: Session) {
    && Settings.Admissible(Settings.WorkMinutes, s.workTime)
    && Settings.Admissible(Settings.BreakMinutes, s.breakTime)
    && Settings.Admissible(Settings.SetCount, s.totalSets)
  }

  /** Neither handler nor timer touches the settings. */
  predicate SameSettings(a: Session, b: Session) {
    a.workTime == b.workTime && a.breakTime == b.breakTime && a.totalSets == b.totalSets
  }

  predicate DeferredOk(s: Session, d: Deferred) {
    && d.seconds >= 1
    && (d.BeginNextSet? ==> 1 <= d.setNumber <= LastSet(s.totalSets))
  }

  /** What every reachable session satisfies: the remaining time is between 0
      and the interval's length, the set counter is at most the last set, and
      every scheduled switch begins a non-empty interval of an existing set. */
  predicate Inv(s: Session) {
    && Configured(s)
    && 0 <= s.timeLeft <= s.totalTime
    && 0 <= s.currentSet <= LastSet(s.totalSets)
    && forall d :: d in s.pending ==> DeferredOk(s, d)
  }

  lemma InitialInv()
    ensures Inv(Initial)
  {
  }

  /** Runs one scheduled callback. */
  function Fire(s: Session, d: Deferred): (r: Step)
    ensures SameSettings(s, r.next) && r.next.pending == s.pending
    ensures r.next.timeLeft == r.next.totalTime == d.seconds
    ensures r.intents == d.bgm
    ensures r.next.phase == (if d.BeginBreak? then Break else Work)
    ensures r.next.currentSet == (if d.BeginBreak? then s.currentSet else d.setNumber)
  {
    match d
    case BeginBreak(secs, intents) =>
      Step(s.(phase := Break, timeLeft := secs, totalTime := secs), intents)
    case BeginNextSet(k, secs, intents) =>
      Step(s.(phase := Work, currentSet := k, timeLeft := secs, totalTime := secs), intents)
  }

  /** The timeout the interval schedules when a work interval runs out. */
  function BreakCallback(s: Session, bgm: Bgm): (d: Deferred)
    ensures d.BeginBreak? && d.seconds == BreakSeconds(s.breakTime) && d.bgm == BreakBgm(bgm)
    ensures Configured(s) ==> DeferredOk(s, d)
  {
    BeginBreak(BreakSeconds(s.breakTime), BreakBgm(bgm))
  }

  /** The timeout the interval schedules when a break runs out and sets
      remain; its closure has captured the current set number. */
  function NextSetCallback(s: Session, bgm: Bgm): (d: Deferred)
    ensures d.BeginNextSet? && d.setNumber == s.currentSet + 1
    ensures d.seconds == WorkSeconds(s.workTime) && d.bgm == WorkBgm(bgm)
    ensures Configured(s) && 0 <= s.currentSet < s.totalSets ==> DeferredOk(s, d)
  {
    BeginNextSet(s.currentSet + 1, WorkSeconds(s.workTime), WorkBgm(bgm))
  }

  /** startWorkTimer: the first set's work interval begins, at its full length,
      with the work sound. Nothing scheduled is cancelled. */
  function Start(s: Session, bgm: Bgm): (r: Step)
    ensures r.next == s.(phase := Work, timeLeft := WorkSeconds(s.workTime),
                         totalTime := WorkSeconds(s.workTime), currentSet := 1)
    ensures r.intents == WorkBgm(bgm)
  {
    Step(s.(phase := Work, timeLeft := WorkSeconds(s.workTime),
            totalTime := WorkSeconds(s.workTime), currentSet := 1),
         WorkBgm(bgm))
  }

  /** startBreakTimer: a break of full length begins in the same set, with
      the break sound. */
  function StartBreak(s: Session, bgm: Bgm): (r: Step)
    ensures r.next == s.(phase := Break, timeLeft := BreakSeconds(s.breakTime),
                         totalTime := BreakSeconds(s.breakTime))
    ensures r.intents == BreakBgm(bgm)
  {
    Fire(s, BreakCallback(s, bgm))
  }

  /** startNextSet: the set counter moves on by one and a full work interval
      begins, with the work sound. */
  function StartNextSet(s: Session, bgm: Bgm): (r: Step)
    ensures r.next == s.(phase := Work, currentSet := s.currentSet + 1,
                         timeLeft := WorkSeconds(s.workTime), totalTime := WorkSeconds(s.workTime))
    ensures r.intents == WorkBgm(bgm)
  {
    Fire(s, NextSetCallback(s, bgm))
  }

  /** pauseTimer: the session is paused and the sound stopped; the remaining
      time, the interval length and the set counter are kept. */
  function Pause(s: Session): (r: Step)
    ensures r.next == s.(phase := Paused)
    ensures r.intents == [Stop]
  {
    Step(s.(phase := Paused), [Stop])
  }

  /** The channel resumeTimer goes back to. Which channel was paused is not
      stored: a paused session whose interval length equals the work length
      is taken to be a work interval, any other to be a break. A session that
      is not paused goes to work. */
  function ResumeChannel(s: Session): (c: Phase)
    ensures c == Work || c == Break
    ensures c == Break <==> s.phase == Paused && s.totalTime != WorkSeconds(s.workTime)
  {
    if s.phase == Paused then
      if s.totalTime == WorkSeconds(s.workTime) then Work else Break
    else Work
  }

  /** resumeTimer: with time left, the inferred channel resumes with its
      sound and nothing else changes; with none left, nothing happens. */
  function Resume(s: Session, bgm: Bgm): (r: Step)
    ensures s.timeLeft <= 0 ==> r == Step(s, [])
    ensures s.timeLeft > 0 ==> r.next == s.(phase := ResumeChannel(s))
    ensures s.timeLeft > 0 ==> r.intents == ChannelBgm(ResumeChannel(s), bgm)
  {
    if s.timeLeft > 0 then
      var channel := ResumeChannel(s);
      Step(s.(phase := channel), ChannelBgm(channel, bgm))
    else
      Step(s, [])
  }

  /** resetTimer: back to idle with no time and no set, sound stopped. The
      scheduled timeouts are not cancelled (see `ResetCancelling`). */
  function Reset(s: Session): (r: Step)
    ensures r.next == s.(phase := Idle, timeLeft := 0, totalTime := 0, currentSet := 0)
    ensures r.intents == [Stop]
  {
    Step(s.(phase := Idle, timeLeft := 0, totalTime := 0, currentSet := 0), [Stop])
  }

  /** resetTimer as intended: it also cancels the scheduled timeouts, so that
      nothing can start afterwards. */
  function ResetCancelling(s: Session): (r: Step)
    ensures r.next.phase == Idle && r.next.timeLeft == 0 && r.next.currentSet == 0
    ensures r.next.pending == []
    ensures r == Step(Reset(s).next.(pending := []), Reset(s).intents)
    ensures SameSettings(s, r.next)
    ensures r.intents == [Stop]
  {
    Step(s.(phase := Idle, timeLeft := 0, totalTime := 0, currentSet := 0, pending := []), [Stop])
  }

  /** The one-second interval callback, which runs only during work and
      breaks. Above one second it counts down by one. At one second or less
      it shows 0 and: at the end of work it schedules the break; at the end of
      a break it schedules the next set while the counter is below the number
      of sets, and otherwise ends the cycle at once, stopping the sound. */
  function Tick(s: Session, bgm: Bgm): (r: Step)
    ensures SameSettings(s, r.next)
    ensures s.timeLeft >= 0 ==> 0 <= r.next.timeLeft <= s.timeLeft
    ensures r.next.timeLeft != s.timeLeft ==> s.phase == Work || s.phase == Break
  {
    if s.phase != Work && s.phase != Break then
      Step(s, [])
    else if s.timeLeft > 1 then
      Step(s.(timeLeft := s.timeLeft - 1), [])
    else if s.phase == Work then
      Step(s.(timeLeft := 0, pending := s.pending + [BreakCallback(s, bgm)]), [])
    else if s.currentSet < s.totalSets then
      Step(s.(timeLeft := 0, pending := s.pending + [NextSetCallback(s, bgm)]), [])
    else
      Step(s.(phase := Idle, timeLeft := 0, currentSet := 0), [Stop])
  }

  /** The sounds a queue of scheduled callbacks asks for, in order. */
  function Sounds(q: seq<Deferred>): seq<Intent>
    decreases |q|
  {
    if |q| == 0 then [] else q[0].bgm + Sounds(q[1..])
  }

  /** Runs every scheduled timeout, oldest first, emptying the queue; the
      intents are those of the callbacks, in order, and the interval the last
      one begins is the one that stays. */
  function Drain(s: Session): (r: Step)
    ensures SameSettings(s, r.next)
    ensures r.next.pending == []
    ensures r.intents == Sounds(s.pending)
    ensures s.pending == [] ==> r == Step(s, [])
    ensures s.pending != [] ==> var last := s.pending[|s.pending| - 1];
      && r.next.phase == (if last.BeginBreak? then Break else Work)
      && r.next.timeLeft == r.next.totalTime == last.seconds
    ensures |s.pending| == 1 ==> r == Fire(s.(pending := []), s.pending[0])
    decreases |s.pending|
  {
    if |s.pending| == 0 then
      Step(s, [])
    else
      var fired := Fire(s.(pending := s.pending[1..]), s.pending[0]);
      var rest := Drain(fired.next);
      Step(rest.next, fired.intents + rest.intents)
  }

  /** Running a scheduled callback the invariant allows keeps the invariant. */
  lemma FirePreservesInv(s: Session, d: Deferred)
    requires Inv(s) && DeferredOk(s, d)
    ensures Inv(Fire(s, d).next)
  {
  }

  /** Every handler keeps the invariant; starting the next set keeps it when
      the interval callback would schedule it, below the number of sets. */
  lemma HandlersPreserveInv(s: Session, bgm: Bgm)
    requires Inv(s)
    ensures Inv(Start(s, bgm).next)
    ensures Inv(StartBreak(s, bgm).next)
    ensures s.currentSet < s.totalSets ==> Inv(StartNextSet(s, bgm).next)
    ensures Inv(Pause(s).next)
    ensures Inv(Resume(s, bgm).next)
    ensures Inv(Reset(s).next)
    ensures Inv(ResetCancelling(s).next)
  {
  }

  /** Starting from any session begins set 1 with a full work interval, a
      blank work field counting as 25 minutes, and asks for at most one sound:
      a file of the work catalog at the work volume. */
  lemma StartBeginsCycle(s: Session, bgm: Bgm)
    ensures var r := Start(s, bgm);
      && r.next.phase == Work && r.next.currentSet == 1
      && r.next.timeLeft == r.next.totalTime == (if s.workTime == 0 then 25 else s.workTime) * 60
      && |r.intents| <= 1
      && forall i :: i in r.intents ==>
           i.Play? && i.volume == bgm.workVolume && exists p :: p in WorkPresets && p.url == i.url
  {
  }

  /** The interval callback keeps the invariant: the time never goes below 0
      and a scheduled switch is a full interval of an existing set. */
  lemma TickPreservesInv(s: Session, bgm: Bgm)
    requires Inv(s)
    ensures Inv(Tick(s, bgm).next)
  {
    var r := Tick(s, bgm).next;
    if r.pending != s.pending {
      assert r.pending[|r.pending| - 1] in r.pending;
    }
  }

  /** Running the scheduled callbacks keeps the invariant. */
  lemma {:induction false} DrainPreservesInv(s: Session)
    requires Inv(s)
    ensures Inv(Drain(s).next)
    decreases |s.pending|
  {
    if s.pending != [] {
      var rest := s.(pending := s.pending[1..]);
      assert s.pending[0] in s.pending;
      assert forall d :: d in rest.pending ==> d in s.pending;
      FirePreservesInv(rest, s.pending[0]);
      DrainPreservesInv(Fire(rest, s.pending[0]).next);
    }
  }

  /** The interval callback case by case: nothing happens outside work and
      breaks; above one second it counts down by exactly one; at one second
      or less the clock shows 0 and the end of work schedules the break, the
      end of a break schedules the next set while the counter is below the
      number of sets, and the end of the last break returns to idle at once
      with the counter at 0 and the sound stopped. Only that last case asks
      anything of the audio element. */
  lemma TickCases(s: Session, bgm: Bgm)
    ensures s.phase != Work && s.phase != Break ==> Tick(s, bgm) == Step(s, [])
    ensures (s.phase == Work || s.phase == Break) && s.timeLeft > 1 ==>
      Tick(s, bgm) == Step(s.(timeLeft := s.timeLeft - 1), [])
    ensures s.phase == Work && s.timeLeft <= 1 ==>
      Tick(s, bgm) == Step(s.(timeLeft := 0, pending := s.pending + [BreakCallback(s, bgm)]), [])
    ensures s.phase == Break && s.timeLeft <= 1 && s.currentSet < s.totalSets ==>
      Tick(s, bgm) == Step(s.(timeLeft := 0, pending := s.pending + [NextSetCallback(s, bgm)]), [])
    ensures s.phase == Break && s.timeLeft <= 1 && s.currentSet >= s.totalSets ==>
      Tick(s, bgm) == Step(s.(phase := Idle, timeLeft := 0, currentSet := 0), [Stop])
  {
  }
}

=== FILE: settings.dfy ===
/** The three numeric settings (work minutes, break minutes, number of sets)
    and the rules their inputs apply on every edit and when they lose focus.
    A parsed entry is `Option<int>`: `None` is what parseInt gives for text
    that is not a number (NaN). */
module Settings {
  import opened Wrappers

  /** A numeric field: the accepted range and the value restored on blur. */
  datatype Field = Field(lo: int, hi: int, fallback: int)

  const WorkMinutes: Field := Field(1, 120, 25)
  const BreakMinutes: Field := Field(1, 60, 5)
  const SetCount: Field := Field(1, 10, 4)

  /** What an edit leaves in the input box: nothing, or some text whose
      parseInt reading is `parsed`. */
  datatype Entry = Blank | Typed(parsed: Option<int>)

  predicate InRange(f: Field, v: int) {
    f.lo <= v <= f.hi
  }

  /** The values a field's state can hold: its range, or 0 while the box is
      blank. */
  predicate Admissible(f: Field, v: int) {
    v == 0 || InRange(f, v)
  }

  /** The onChange handler: a blank box stores 0 for the time being, a number
      in range is stored, anything else leaves the stored value alone. */
  function OnChange(f: Field, current: int, e: Entry): (r: int)
    ensures e == Blank ==> r == 0
    ensures e.Typed? && e.parsed.Some? && InRange(f, e.parsed.value) ==> r == e.parsed.value
    ensures e.Typed? && !(e.parsed.Some? && InRange(f, e.parsed.value)) ==> r == current
    ensures r != current ==> r == 0 || (e.Typed? && e.parsed == Some(r) && InRange(f, r))
    ensures Admissible(f, current) ==> Admissible(f, r)
  {
    match e
    case Blank => 0
    case Typed(p) =>
      if p.Some? && InRange(f, p.value) then p.value else current
  }

  /** The onBlur handler: it reads the box again, and when that reading is
      not a number or is out of range it restores the field's default;
      otherwise the stored value stays as it is. */
  function OnBlur(f: Field, current: int, parsed: Option<int>): (r: int)
    ensures parsed.None? || !InRange(f, parsed.value) ==> r == f.fallback
    ensures parsed.Some? && InRange(f, parsed.value) ==> r == current
  {
    if parsed.None? || !InRange(f, parsed.value) then f.fallback else current
  }

  /** What parseInt reads from the box on blur when the stored value is `v`.
      The box is a controlled input showing nothing for 0 and `v` otherwise,
      so an edit the onChange handler refused has been undone by the time the
      box loses focus. */
  function Displayed(v: int): (r: Option<int>)
    ensures r.None? <==> v == 0
    ensures r.Some? ==> r.value == v
  {
    if v == 0 then None else Some(v)
  }

  /** An edit followed by leaving the box always leaves a value in range: the
      typed number when it was in range, the default when the box was left
      blank, and otherwise the value stored before the edit, or the default
      if that was blank too. */
  lemma EditThenBlurInRange(f: Field, current: int, e: Entry)
    requires 1 <= f.lo && InRange(f, f.fallback) && Admissible(f, current)
    ensures var v := OnChange(f, current, e);
      var w := OnBlur(f, v, Displayed(v));
      && InRange(f, w)
      && (e.Typed? && e.parsed.Some? && InRange(f, e.parsed.value) ==> w == e.parsed.value)
      && (e == Blank ==> w == f.fallback)
      && (e.Typed? && !(e.parsed.Some? && InRange(f, e.parsed.value)) ==>
            w == (if current == 0 then f.fallback else current))
  {
  }

  /** Leaving the box a second time changes nothing. */
  lemma BlurSettles(f: Field, v: int)
    requires 1 <= f.lo && InRange(f, f.fallback)
    ensures var w := OnBlur(f, v, Displayed(v));
      OnBlur(f, w, Displayed(w)) == w
  {
  }

  /** Each field's range starts at 1 and holds its default, and every
      admissible value is a non-negative count. */
  lemma FieldsWellFormed(v: int)
    ensures 1 <= WorkMinutes.lo && InRange(WorkMinutes, WorkMinutes.fallback)
    ensures 1 <= BreakMinutes.lo && InRange(BreakMinutes, BreakMinutes.fallback)
    ensures 1 <= SetCount.lo && InRange(SetCount, SetCount.fallback)
    ensures Admissible(WorkMinutes, v) || Admissible(BreakMinutes, v) || Admissible(SetCount, v) ==> 0 <= v <= 120
  {
  }
}

=== FILE: wrappers.dfy ===
/** Optional values: a parsed number that may be missing (JavaScript's NaN),
    or a lookup that may find nothing. */
module Wrappers {

  datatype Option<+T> = None | Some(value: T)
}
